=== FILE: README.md ===
# Shooting hoops: vectors, particles and the throw-and-score state

A Dafny model of the core of an Angular basketball-shooting game. The
player grabs the ball, drags it and lets go. The ball then flies as a
particle under gravity. Each animation frame decides whether the falling
ball bounces off the rim, drops through the hoop for two or three points,
or misses. A timeout two seconds after the release resets the flight and
recomputes the accuracy.

The model has six modules:

- `RealMath` (`math.dfy`) holds the host's `Math.sqrt`, `Math.cos`,
  `Math.sin` and `Math.atan2`. They are a parameter `m: MathLib`, not
  built-ins. The predicate `Exact(m)` states the properties of exact real
  arithmetic that the vector code relies on:
  - the square root is the non-negative root;
  - `cos² + sin² = 1`;
  - `atan2(0, 0) = 0`;
  - the pair `(cos(atan2(y, x)), sin(atan2(y, x)))` points along `(x, y)`.

  Every polar property is proved under `Exact(m)`.
- `Vectors` (`vector.dfy`) models the `Vector` class as an immutable value.
  Each mutator returns the updated vector. Numbers are `real`. The
  component does share one object: after `releaseBall` and after a rim
  bounce, `p.velocity` and `force` are the same vector. The sharing cannot
  be observed, because each in-place change to `force` (`setLength` in
  `releaseBall`, `setX` and `setLength` at the rim) happens before
  `p.velocity = this.force`, and the next `update` gives the particle a
  fresh velocity through `add`.
- `Particles` (`particle.dfy`) models the `Particle` class. It includes a
  closed form for any number of `update` steps.
- `Contact` (`contact.dfy`) is the decision `tick` makes when the ball
  reaches the basket's height: rim, hoop or wide.
- `Session` (`session.dfy`) models the motion and score fields of
  `AppComponent`. Each handler is a function from the old state to the new
  one:
  - `grabBall` on pointer down;
  - `getSpeed`, the state part of `moveBall`, on pointer move;
  - `releaseBall` on pointer up;
  - `tick` on every frame;
  - `reset` on the timeout.

  `SessionProperties` (`session_props.dfy`) proves what holds across any
  sequence of these events.

Some fields stay `undefined` until a handler first assigns them. They are
`Option`s. A handler that dereferences one too early would raise a
`TypeError`. The model returns the state as it stands at that point: the
assignments made before the error are kept, and nothing after it happens.
The model keeps `force` with the ball. That is exact: `grabBall` assigns
`p` and `force` together (`src/app/app.component.ts:182-183`), and only then
attaches `moveBall`, the one caller of `getSpeed` (lines 189-190). Before
the first grab, `releaseBall` raises at `this.force.getLength()`
(line 224), after the shot was counted.

Only `grabBall` and `releaseBall` are attached at start-up. A grab attaches
`moveBall`, and a release attaches `tick` and schedules `reset`. The
component means to remove these listeners again, but it passes unbound
method references to `removeEventListener`, so once attached they stay.
The model admits every event order. That is a superset of the schedules
the program delivers, so every property proved for all event sequences
holds for the program too.

Two behaviours of the code are easy to misread. The model follows the
code:

- A rim bounce ends the throw. `hasThrown` is cleared at the contact test
  (`src/app/app.component.ts:124-125`),
  before the rim, hoop or wide branch is chosen, so a ball that bounced
  cannot score later in the same flight.
- The accuracy is `hits / shots` as a JavaScript division
  (`src/app/app.component.ts:302`), with no guard
  for zero shots: with no shots it is `NaN`, not `0`. It starts as the
  field initialiser `0`. In the game, only a release schedules a `reset`,
  and a release counts the shot first, so the division by zero does not
  arise there. The model admits every event order, so it represents the
  quotient as `Quotient = NaN | Infinity | Finite(value)`.
  `SessionProperties.Reachable` shows that `Infinity` never occurs.

## Model

| member | source | states |
|---|---|---|
| Vectors.New | src/app/models/vector.model.ts:6-9 | The bare constructor produces a unit vector on the positive x axis. |
| Vectors.SetX | src/app/models/vector.model.ts:18-20 | `setX` replaces the x component and leaves y alone. |
| Vectors.SetY | src/app/models/vector.model.ts:26-28 | `setY` replaces the y component and leaves x alone. |
| Vectors.Create | src/app/models/vector.model.ts:11-16 | `create(x, y)` has exactly the components `x` and `y`: the constructor's defaults are fully overwritten. |
| Vectors.GetLength | src/app/models/vector.model.ts:50-52 | The length is the non-negative number whose square is `x² + y²`, and it is zero exactly for the zero vector. |
| Vectors.GetAngle | src/app/models/vector.model.ts:40-42 | The angle is a direction of the vector: cos and sin of it, times the length, give back x and y. The zero vector has angle 0. |
| Vectors.SetAngle | src/app/models/vector.model.ts:34-38 | `setAngle` rebuilds the vector from the new angle and the current length. It has no contract of its own; `Vectors.SetAngleKeepsLength` and `Vectors.PolarRoundTrip` state its properties. |
| Vectors.SetLength | src/app/models/vector.model.ts:44-48 | `setLength` rebuilds the vector from the current angle and the new length. It has no contract of its own; `Vectors.SetLengthResizes`, `Vectors.SetLengthGivesLength`, `Vectors.SetLengthScales` and `Vectors.SetLengthByFactor` state its properties. |
| Vectors.SetAngleKeepsLength | src/app/models/vector.model.ts:34-38 | `setAngle` keeps the length, both squared and as `getLength` reports it, and leaves the zero vector at zero. |
| Vectors.SetLengthResizes | src/app/models/vector.model.ts:44-48 | After `setLength(L)` the squared length is `L²`. The new vector times the old length equals the old vector times `L`. The zero vector, whose angle is 0, becomes `(L, 0)`. |
| Vectors.SetLengthGivesLength | src/app/models/vector.model.ts:44-48 | For `L ≥ 0`, `getLength` after `setLength(L)` is exactly `L`. |
| Vectors.SetLengthScales | src/app/models/vector.model.ts:44-48 | On a non-zero vector, `setLength(L)` is uniform scaling by `L / getLength()`. |
| Vectors.SetLengthByFactor | src/app/models/vector.model.ts:44-52 | `setLength(getLength() * f)` is uniform scaling by `f`, for every vector including zero. |
| Vectors.PolarRoundTrip | src/app/models/vector.model.ts:34-52 | `setAngle(getAngle())` and `setLength(getLength())` both give the vector back unchanged. |
| Vectors.ScaleUniformLength | src/app/models/vector.model.ts:62-64 | Scaling both components by `k` multiplies `getLength` by `abs(k)`. |
| Vectors.Add | src/app/models/vector.model.ts:54-56 | `add` is the componentwise sum. |
| Vectors.Subtract | src/app/models/vector.model.ts:58-60 | `subtract` is the componentwise difference. |
| Vectors.AddThenSubtract | src/app/models/vector.model.ts:54-60 | Subtracting `b` undoes adding `b`. |
| Vectors.SubtractThenAdd | src/app/models/vector.model.ts:54-60 | Adding `b` undoes subtracting `b`. |
| Vectors.Scale | src/app/models/vector.model.ts:62-64 | As written, `scale(k)` returns `x·k` in both components: x is scaled correctly and y is a copy of it. |
| Vectors.ScaleUniform | src/app/models/vector.model.ts:62-64 | The corrected `scale`, multiplying both components by `k`. It has no contract of its own; `Vectors.ScaleUniformLength`, `Vectors.ScaleUniformDistributes` and `Vectors.ScaleUniformComposes` state its properties. |
| Vectors.ScaleAgreesOnlyOnDiagonal | src/app/models/vector.model.ts:62-64 | As written, `scale(k)` agrees with uniform scaling exactly when `k = 0` or `x = y`. |
| Vectors.ScaleCounterexample | src/app/models/vector.model.ts:62-64 | `(1, 2).scale(2)` gives `(2, 2)`, while uniform scaling gives `(2, 4)`. |
| Vectors.ScaleUniformDistributes | src/app/models/vector.model.ts:62-64 | Corrected scaling distributes over `add`. |
| Vectors.ScaleUniformComposes | src/app/models/vector.model.ts:62-64 | Scaling by `j` and then by `k` is scaling by `j·k`. |
| Particles.GravityOrZero | src/app/models/particle.model.ts:17 | Over the reals, `grav ? grav : 0` is `grav`. |
| Particles.Create | src/app/models/particle.model.ts:11-20 | `create(x, y, …, grav)` starts at `(x, y)` with gravity `(0, grav)`. |
| Particles.Launch | src/app/models/particle.model.ts:14-16 | The starting velocity: `(0, 0)`, then `setLength(speed)`, then `setAngle(direction)`. It has no contract of its own; `Particles.CreateVelocity` and `Particles.CreateAtRest` state its properties. |
| Particles.CreateVelocity | src/app/models/particle.model.ts:11-20 | The starting velocity is the polar vector with angle `direction` and length `abs(speed)`. Its squared length is `speed²`, and it is zero exactly when `speed` is zero. |
| Particles.CreateAtRest | src/app/models/particle.model.ts:11-20 | `create(x, y, 0, d, grav)` is at rest at `(x, y)` for any direction `d`. This is what `grabBall` relies on. |
| Particles.Accelerate | src/app/models/particle.model.ts:22-24 | `accelerate(v)` changes the velocity by exactly `v` and nothing else. |
| Particles.Update | src/app/models/particle.model.ts:26-29 | `update` adds gravity to the velocity first, then moves the position by the new velocity. Gravity is unchanged. |
| Particles.IterateClosedForm | src/app/models/particle.model.ts:26-29 | After `n` updates the velocity is `v0 + n·g` and the position is `p0 + n·v0 + g·n(n+1)/2`. |
| Particles.FromRest | src/app/models/particle.model.ts:26-29 | A particle at rest falls exactly `g·n(n+1)/2` in `n` updates. |
| Contact.Classify | src/app/app.component.ts:128-141 | A contact is a rim contact exactly when `0.1·w < x < w` or `−w < x < −0.1·w`. |
| Contact.ZonesPartition | src/app/app.component.ts:128-141 | For a non-negative width the hoop zone is the two edges plus the centre band `[−0.1·w, 0.1·w]`, and the wide zone is everything beyond the edges. |
| Contact.BoundariesScore | src/app/app.component.ts:128-141 | Contacts at either edge and at either end of the centre band score; halfway out is rim; twice the width is wide. |
| Contact.Points | src/app/app.component.ts:143-149 | A basket is worth 2 or 3 points, and 3 exactly when the horizontal force exceeds 2 in magnitude. |
| Contact.Judge | src/app/app.component.ts:128-149 | The outcome is a bounce exactly for the rim and a score exactly for the hoop. The bounce force has x set to `x/10`, then 70% of its length. |
| Session.GrabBall | src/app/app.component.ts:179-188 | A grab places a resting, gravity-free particle at `(0, offsetY)` with zero force. The remembered grab offset plus that resting place is the pointer. Nothing else changes. |
| Session.SkewedDelta | src/app/app.component.ts:284-296 | The sampled force is half the horizontal and twice the vertical pointer delta. |
| Session.GetSpeed | src/app/app.component.ts:275-299 | The first sample only records the pointer. Later samples set the force to the skewed delta and put the ball under the pointer, offset by the grab offset. A missing ball leaves the ball untouched. |
| Session.ClampForce | src/app/app.component.ts:223-226 | A force of length at most 30 is kept. A longer one gets squared length 900, in the same direction. |
| Session.ReleaseBall | src/app/app.component.ts:205-228 | A release counts a shot, marks the throw, and restarts sampling. The clamped force becomes the velocity under gravity `(0, 0.8)`. Before any grab, it stops after counting the shot. |
| Session.InContactWindow | src/app/app.component.ts:112-124 | The conditions under which a frame tests for contact: a throw in flight, `highEnough` latched, falling, force longer than 15, and height strictly within 10 of the basket. It is a predicate; `SessionProperties.ContactWindowBySquares` restates it without the square root. |
| Session.ApplyOutcome | src/app/app.component.ts:132-149 | A bounce makes the deflected force both the force and the velocity of the ball. A score or a miss leaves the ball as it was. Only a score changes the counters, by one hit and the basket's points, and no outcome changes the shots. |
| Session.Tick | src/app/app.component.ts:108-177 | A frame latches `highEnough`, scores at most once and only while a throw is in flight, then advances the particle one step and records the pre-step height. |
| Session.Accuracy | src/app/app.component.ts:301-302 | `hits / shots` times `shots` is `hits`. With no shots the result is `NaN` for no hits and `Infinity` otherwise. |
| Session.Reset | src/app/app.component.ts:243-256 | A reset switches gravity off, clears both flags, recomputes the accuracy, and keeps everything else, counters included. |
| SessionProperties.AccuracyInRange | src/app/app.component.ts:301-302 | With no more hits than shots, the accuracy is `NaN` before the first shot and a fraction in `[0, 1]` after it. |
| SessionProperties.StepPreservesConsistent | src/app/app.component.ts:23-38 | Every handler keeps the invariant: hits plus a pending throw fit in the shots, the score is 2 to 3 points per hit, and the accuracy is `NaN` or in `[0, 1]`. |
| SessionProperties.RunPreservesConsistent | src/app/app.component.ts:23-38 | Every sequence of events keeps that invariant. |
| SessionProperties.Reachable | src/app/app.component.ts:34-38 | From the field initialisers and under any event order: hits never exceed shots, the score stays within 2 to 3 points per hit, and the accuracy is never infinite. |
| SessionProperties.StepMonotone | src/app/app.component.ts:34-38 | No handler decreases shots, hits or score. |
| SessionProperties.RunMonotone | src/app/app.component.ts:34-38 | Over any event sequence, shots, hits and score only grow. |
| SessionProperties.StepKeepsHighEnough | src/app/app.component.ts:112-118 | Once `highEnough` is set, only `reset` clears it. |
| SessionProperties.HighEnoughLatches | src/app/app.component.ts:112-118 | Across any events without a timeout, `highEnough` stays set. |
| SessionProperties.ContactWindowBySquares | src/app/app.component.ts:118-124 | The contact test's `getLength() > 15` is the same as squared length above 225, and its falling test is the strict `lastY < currY` on a defined `lastY`. |
| SessionProperties.TickScoresOnlyOverHoop | src/app/app.component.ts:118-149 | A frame scores exactly when the ball is in the contact window over the hoop. A basket ends the throw and is worth 3 exactly when the horizontal force exceeds 2. The ball keeps its force and takes a plain `update`. |
| SessionProperties.TickRimBounce | src/app/app.component.ts:128-137 | A rim contact replaces the force with the deflected one and makes it the velocity, which the frame's update then increases by gravity. Nothing is scored and the throw ends. |
| SessionProperties.TickContactEndsThrow | src/app/app.component.ts:124-125 | Every contact in the window ends the throw, whether it is rim, hoop or wide. |
| SessionProperties.TickWideMiss | src/app/app.component.ts:124-141 | A contact wide of the basket ends the throw and nothing else: hits, score and force are kept and the particle takes a plain `update`. |
| SessionProperties.TickOutsideWindow | src/app/app.component.ts:108-177 | Outside the contact window a frame only updates the particle: the force, the throw flag and the counters stay the same. |
| SessionProperties.GrabThenMoveBack | src/app/app.component.ts:182-187 | After a grab with no sample pending, the first move sample only records the pointer. If a sample is already pending, moving back to the grab point puts the ball at its resting place `(0, offsetY)`. |
| SessionProperties.ReleaseClampsToMax | src/app/app.component.ts:223-227 | A release with a force longer than 30 throws at exactly length 30. |
| SessionProperties.ResetAccuracy | src/app/app.component.ts:256-302 | A reset after at least one shot shows a finite accuracy in `[0, 1]` that is exactly `hits / shots`. |

## Left out

- Rendering is not modelled: TweenMax animations, the rotation token `rot`, the basket's `zIndex`, the resize timeline and the score text. None of them feeds back into the state.
- `resize`'s geometry is not modelled. `offsetY` and `basketWidth` are inputs of the events that read them.
- Listener bookkeeping (`addEvents`, `removeEvents`, the ticker and `delayedCall`) is not modelled. Events may come in any order, which covers every schedule the leaked listeners allow.
- `Date.now` and `timestamp` are not modelled. The timestamp is only ever compared with `null`, so `lastMouse == None` stands for `timestamp === null`.
- `getMouse` is not modelled. Its `clientX || targetTouches[0].clientX` fallback reads the DOM event, so the pointer is an input. A pointer exactly at client coordinate 0 would take the touch fallback. A mouse event has no `targetTouches`, so that fallback raises a `TypeError`; in `grabBall` it would raise after `p` and `force` are assigned but before `start`. The model does not represent that case.
- IEEE-754 doubles are not modelled. Numbers are exact reals with no rounding and no overflow. `NaN` and `Infinity` appear only in the accuracy, the one place where the code can produce them from valid inputs.
- `Math.sqrt`, `Math.cos`, `Math.sin` and `Math.atan2` are parameters and not computed. Polar results are proved under `Exact`, not against any particular floating-point library.
- `Particles.GravityOrZero`: `grav ? grav : 0` also maps `undefined` and `NaN` to 0. Reals have neither, so the model states only the real case.
- `getX` and `getY` have no members of their own. They are the datatype's field selectors `x` and `y`.
- `e.preventDefault()` is not modelled. It has no effect on the state.

## Findings

| source | as written | input that shows it | evidently intended | confidence | as-written member | corrected member |
|---|---|---|---|---|---|---|
| src/app/models/vector.model.ts:62-64 | `scale(k)` returns `create(x·k, x·k)`, so the y component is dropped | `(1, 2).scale(2)` gives `(2, 2)` | `create(x·k, y·k)` | high; not executed | Vectors.Scale | Vectors.ScaleUniform |

`Vectors.Scale` models the code as written. `Vectors.ScaleCounterexample`
exhibits the input above, and `Vectors.ScaleAgreesOnlyOnDiagonal` shows
that it matches uniform scaling only when `k = 0` or `x = y`. The
corrected `Vectors.ScaleUniform` multiplies both components. The model
uses it wherever it scales a vector: for the rim bounce, the polar setters
and the particle's closed form. The lemmas `Vectors.ScaleUniformLength`,
`Vectors.ScaleUniformDistributes` and `Vectors.ScaleUniformComposes` are
proved about it.

=== FILE: contact.dfy ===
/**
  What happens when the falling ball reaches the basket's height, as
  decided inside `tick` of `src/app/app.component.ts`: a bounce off the
  rim, a basket worth two or three points, or nothing.
*/
module Contact {
  import opened RealMath
  import opened Vectors

  /** The fraction of the basket width around its centre that is not rim. */
  const CentreFraction: real := 0.1
  /** A rim bounce divides the contact x by this to get the new horizontal force. */
  const RimDeflection: real := 10.0
  /** A rim bounce keeps this fraction of the force's length. */
  const RimDamping: real := 0.7
  /** A basket is worth a bonus point when the horizontal force exceeds this in magnitude. */
  const BonusForce: real := 2.0

  datatype Zone = Rim | Hoop | Wide

  /** The zone of horizontal offset `x` from the basket's centre; the rim test comes first. */
  function Classify(x: real, basketWidth: real): (z: Zone)
    ensures z == Rim <==>
      ((CentreFraction * basketWidth < x < basketWidth) || (-basketWidth < x < -CentreFraction * basketWidth))
  {
    if (x > basketWidth * CentreFraction && x < basketWidth)
       || (x < -basketWidth * CentreFraction && x > -basketWidth)
    then Rim
    else if x <= basketWidth && x >= -basketWidth then Hoop
    else Wide
  }

  datatype Outcome = Bounce(force: Vector) | Score(points: nat) | Miss

  /** Points for a basket scored with horizontal force `fx`. */
  function Points(fx: real): (points: nat)
    ensures points == 2 || points == 3
    ensures points == 3 <==> Abs(fx) > BonusForce
  {
    if fx > BonusForce || fx < -BonusForce then 3 else 2
  }

  /**
    The outcome of a contact at offset `x` with the current `force`: the rim
    sets the force's x to `x / 10` and shortens it to 70% of its length.
  */
  function Judge(m: MathLib, force: Vector, x: real, basketWidth: real): (o: Outcome)
    requires Exact(m)
    ensures o.Bounce? <==> Classify(x, basketWidth) == Rim
    ensures o.Score? <==> Classify(x, basketWidth) == Hoop
    ensures o.Bounce? ==> o.force == ScaleUniform(Vector(x / RimDeflection, force.y), RimDamping)
    ensures o.Score? ==> o.points == 2 || o.points == 3
  {
    match Classify(x, basketWidth)
    case Rim =>
      var deflected := SetX(force, x / RimDeflection);
      SetLengthByFactor(m, deflected, RimDamping);
      Bounce(SetLength(m, deflected, GetLength(m, deflected) * RimDamping))
    case Hoop => Score(Points(force.x))
    case Wide => Miss
  }

  /**
    For a basket of non-negative width the three zones partition the line:
    a basket is scored at the two outer edges and in the centre band
    `[-0.1 w, 0.1 w]`; anything beyond the edges is wide.
  */
  lemma ZonesPartition(x: real, basketWidth: real)
    requires basketWidth >= 0.0
    ensures Classify(x, basketWidth) == Hoop <==>
      (x == basketWidth || x == -basketWidth || -CentreFraction * basketWidth <= x <= CentreFraction * basketWidth)
    ensures Classify(x, basketWidth) == Wide <==> x < -basketWidth || x > basketWidth
  {
  }

  /** A contact exactly on either edge of the basket, or on either end of the centre band, scores. */
  lemma BoundariesScore(basketWidth: real)
    requires basketWidth > 0.0
    ensures Classify(basketWidth, basketWidth) == Hoop
    ensures Classify(-basketWidth, basketWidth) == Hoop
    ensures Classify(CentreFraction * basketWidth, basketWidth) == Hoop
    ensures Classify(-CentreFraction * basketWidth, basketWidth) == Hoop
    ensures Classify(0.5 * basketWidth, basketWidth) == Rim
    ensures Classify(2.0 * basketWidth, basketWidth) == Wide
  {
  }
}

=== FILE: math.dfy ===
/**
  The host's `Math.sqrt`, `Math.cos`, `Math.sin` and `Math.atan2`.

  The vector code calls these four library functions and nothing else that
  is transcendental. They are taken as a parameter of the model, and the
  predicate `Exact` says what the vector code relies on them for: exact
  real square roots, the Pythagorean identity, `atan2(0, 0) == 0`, and that
  `(cos(atan2(y, x)), sin(atan2(y, x)))` is the unit direction of `(x, y)`.
*/
module RealMath {

  datatype MathLib = MathLib(
    sqrt: real -> real,
    cos: real -> real,
    sin: real -> real,
    atan2: (real, real) -> real)

  /** The four functions agree with their exact real counterparts on everything the vector code observes. */
  ghost predicate Exact(m: MathLib) {
    && (forall s :: s >= 0.0 ==> m.sqrt(s) >= 0.0 && m.sqrt(s) * m.sqrt(s) == s)
    && (forall t :: m.cos(t) * m.cos(t) + m.sin(t) * m.sin(t) == 1.0)
    && m.atan2(0.0, 0.0) == 0.0
    && m.cos(0.0) == 1.0
    && m.sin(0.0) == 0.0
    && (forall y, x ::
          && m.cos(m.atan2(y, x)) * m.sqrt(x * x + y * y) == x
          && m.sin(m.atan2(y, x)) * m.sqrt(x * x + y * y) == y)
  }

  function Abs(a: real): real {
    if a >= 0.0 then a else -a
  }

  lemma SquareOfAbs(a: real)
    ensures Abs(a) * Abs(a) == a * a
  {
  }

  /** For a non-negative root `q` of `s`, comparing `q` with a non-negative bound is comparing `s` with its square. */
  lemma RootAbove(q: real, s: real, c: real)
    requires q >= 0.0 && q * q == s && c >= 0.0
    ensures q > c <==> s > c * c
  {
    if q > c {
      PositiveProduct(q - c, q);
      NonNegativeProduct(c, q - c);
      assert q * q > c * c;
    } else {
      NonNegativeProduct(c - q, q);
      NonNegativeProduct(c, c - q);
      assert q * q <= c * c;
    }
  }

  lemma ZeroProduct(a: real, b: real)
    requires a * b == 0.0
    ensures a == 0.0 || b == 0.0
  {
  }

  lemma NonNegativeProduct(a: real, b: real)
    requires a >= 0.0 && b >= 0.0
    ensures a * b >= 0.0
  {
  }

  lemma PositiveProduct(a: real, b: real)
    requires a > 0.0 && b > 0.0
    ensures a * b > 0.0
  {
  }
}

=== FILE: particle.dfy ===
/**
  The `Particle` of `src/app/models/particle.model.ts`: a position, a
  velocity and a constant gravity, advanced by one semi-implicit Euler
  step per `update`.
*/
module Particles {
  import opened RealMath
  import opened Vectors

  datatype Particle = Particle(position: Vector, velocity: Vector, gravity: Vector)

  /** `grav ? grav : 0`: over the reals the only falsy number is zero. */
  function GravityOrZero(grav: real): (r: real)
    ensures r == grav
  {
    if grav != 0.0 then grav else 0.0
  }

  /**
    `Particle.create(x, y, speed, direction, grav)`: the velocity starts as
    the zero vector, gets length `speed`, then angle `direction`.
  */
  function Create(m: MathLib, x: real, y: real, speed: real, direction: real, grav: real): (r: Particle)
    requires Exact(m)
    ensures r.position == Vector(x, y)
    ensures r.gravity == Vector(0.0, grav)
  {
    Particle(Vectors.Create(x, y), Launch(m, speed, direction), Vectors.Create(0.0, GravityOrZero(grav)))
  }

  /** The starting velocity of `create`: a zero vector given length `speed`, then angle `direction`. */
  function Launch(m: MathLib, speed: real, direction: real): Vector
    requires Exact(m)
  {
    SetAngle(m, SetLength(m, Vectors.Create(0.0, 0.0), speed), direction)
  }

  /** `accelerate`: adds `v` to the velocity. */
  function Accelerate(p: Particle, v: Vector): (r: Particle)
    ensures Subtract(r.velocity, p.velocity) == v
    ensures r.position == p.position && r.gravity == p.gravity
  {
    p.(velocity := Add(p.velocity, v))
  }

  /** `update`: the velocity takes on gravity first, then the position moves by the new velocity. */
  function Update(p: Particle): (r: Particle)
    ensures Subtract(r.velocity, p.velocity) == p.gravity
    ensures Subtract(r.position, p.position) == r.velocity
    ensures r.gravity == p.gravity
  {
    var velocity := Add(p.velocity, p.gravity);
    Particle(Add(p.position, velocity), velocity, p.gravity)
  }

  /** `n` consecutive calls of `update`. */
  function Iterate(p: Particle, n: nat): Particle {
    if n == 0 then p else Update(Iterate(p, n - 1))
  }

  /**
    The particle `n` updates after `p` under constant gravity `g`, in closed
    form: velocity `v0 + n·g`, position `p0 + n·v0 + g·n(n+1)/2`.
  */
  function ClosedForm(p: Particle, n: nat): Particle {
    Particle(
      Add(Add(p.position, ScaleUniform(p.velocity, n as real)), ScaleUniform(p.gravity, Triangular(n))),
      Add(p.velocity, ScaleUniform(p.gravity, n as real)),
      p.gravity)
  }

  /** `n` updates agree with the closed form. */
  lemma {:induction false} IterateClosedForm(p: Particle, n: nat)
    ensures Iterate(p, n) == ClosedForm(p, n)
  {
    if n == 0 {
      assert ScaleUniform(p.velocity, 0.0) == Zero && ScaleUniform(p.gravity, 0.0) == Zero;
    } else {
      IterateClosedForm(p, n - 1);
      ClosedFormStep(p, n);
    }
  }

  /** One `update` advances the closed form by one step. */
  lemma ClosedFormStep(p: Particle, n: nat)
    requires n > 0
    ensures Update(ClosedForm(p, n - 1)) == ClosedForm(p, n)
  {
    var r, c := Update(ClosedForm(p, n - 1)), ClosedForm(p, n);
    var k, tk, tn := (n - 1) as real, Triangular(n - 1), Triangular(n);
    assert n as real == k + 1.0;
    TriangularStep(n);
    AxisStep(p.position.x, p.velocity.x, p.gravity.x, k, tk, tn);
    AxisStep(p.position.y, p.velocity.y, p.gravity.y, k, tk, tn);
    assert r.velocity.x == c.velocity.x && r.velocity.y == c.velocity.y;
    assert r.position.x == c.position.x && r.position.y == c.position.y;
    assert r.velocity == Vector(r.velocity.x, r.velocity.y) && c.velocity == Vector(c.velocity.x, c.velocity.y);
    assert r.position == Vector(r.position.x, r.position.y) && c.position == Vector(c.position.x, c.position.y);
  }

  /** `n(n+1)/2` as a real. */
  function Triangular(n: nat): real {
    (n as real) * (n as real + 1.0) / 2.0
  }

  /** From rest at `p0`, `n` updates fall exactly `g·n(n+1)/2`. */
  lemma FromRest(p: Particle, n: nat)
    requires p.velocity == Zero
    ensures Iterate(p, n).gravity == p.gravity
    ensures Iterate(p, n).velocity == ScaleUniform(p.gravity, n as real)
    ensures Subtract(Iterate(p, n).position, p.position) == ScaleUniform(p.gravity, Triangular(n))
  {
    IterateClosedForm(p, n);
    assert ScaleUniform(p.velocity, n as real) == Zero;
  }

  /**
    The velocity `create` gives is the polar vector with angle `direction`
    and length `|speed|`; it is zero exactly when `speed` is.
  */
  lemma CreateVelocity(m: MathLib, x: real, y: real, speed: real, direction: real, grav: real)
    requires Exact(m)
    ensures var v := Create(m, x, y, speed, direction, grav).velocity;
      && v == Polar(m, direction, Abs(speed))
      && LengthSq(v) == speed * speed
      && (v == Zero <==> speed == 0.0)
  {
    var v := Create(m, x, y, speed, direction, grav).velocity;
    assert v == Launch(m, speed, direction);
    LaunchDirection(m, speed, direction);
    PolarOfAbs(m, direction, speed);
  }

  /** `create(x, y, 0, d, grav)` is at rest at `(x, y)` whatever the direction `d`. */
  lemma CreateAtRest(m: MathLib, x: real, y: real, direction: real, grav: real)
    requires Exact(m)
    ensures Create(m, x, y, 0.0, direction, grav) == Particle(Vector(x, y), Zero, Vector(0.0, grav))
  {
    LaunchDirection(m, 0.0, direction);
    PolarOfAbs(m, direction, 0.0);
  }

  // ---------------------------------------------------------------------
  // Helpers

  lemma LaunchDirection(m: MathLib, speed: real, direction: real)
    requires Exact(m)
    ensures Launch(m, speed, direction) == Polar(m, direction, Abs(speed))
  {
    assert Vectors.Create(0.0, 0.0) == Zero;
    SetLengthOfZero(m, speed);
    TurnOnAxis(m, speed, direction);
  }

  lemma PolarOfAbs(m: MathLib, direction: real, speed: real)
    requires Exact(m)
    ensures LengthSq(Polar(m, direction, Abs(speed))) == speed * speed
    ensures Polar(m, direction, Abs(speed)) == Zero <==> speed == 0.0
  {
    var c, s := m.cos(direction), m.sin(direction);
    assert c * c + s * s == 1.0;
    ScaledUnit(c, s, Abs(speed));
    SquareOfAbs(speed);
  }

  /** A unit vector scaled by `a` has squared length `a²`, and is zero only for `a == 0`. */
  lemma ScaledUnit(c: real, s: real, a: real)
    requires c * c + s * s == 1.0
    ensures LengthSq(Vector(c * a, s * a)) == a * a
    ensures Vector(c * a, s * a) == Zero ==> a == 0.0
  {
    assert (c * a) * (c * a) + (s * a) * (s * a) == (c * c + s * s) * (a * a);
    if c * a == 0.0 && s * a == 0.0 {
      SquareZero(a);
    }
  }

  lemma TurnOnAxis(m: MathLib, speed: real, direction: real)
    requires Exact(m)
    ensures SetAngle(m, Vector(speed, 0.0), direction) == Polar(m, direction, Abs(speed))
  {
    LengthOnAxis(m, speed);
  }

  lemma LengthOnAxis(m: MathLib, a: real)
    requires Exact(m)
    ensures GetLength(m, Vector(a, 0.0)) == Abs(a)
  {
    OnXAxisLengthSq(a);
    SquareOfAbs(a);
    SameSquare(GetLength(m, Vector(a, 0.0)), Abs(a));
  }

  /** Each triangular number adds the next count. */
  lemma TriangularStep(n: nat)
    requires n > 0
    ensures Triangular(n) == Triangular(n - 1) + n as real
  {
  }

  /** One inductive step of the closed form in one component, with `tk` and `tn` the triangular numbers of `k` and `k + 1`. */
  lemma AxisStep(p0: real, v0: real, g: real, k: real, tk: real, tn: real)
    requires tn == tk + (k + 1.0)
    ensures v0 + g * k + g == v0 + g * (k + 1.0)
    ensures p0 + v0 * k + g * tk + (v0 + g * k + g) == p0 + v0 * (k + 1.0) + g * tn
  {
  }
}

=== FILE: session.dfy ===
/**
  The throw-and-score state of `AppComponent` in `src/app/app.component.ts`.

  The component keeps its motion and score state in fields and changes
  them from five handlers: `grabBall` (pointer down), `moveBall` via
  `getSpeed` (pointer move), `releaseBall` (pointer up), `tick` (every
  animation frame after a release) and `reset` (two seconds after a
  release). Each handler is a function from the state before to the
  state after. The host may deliver the events in any order, because the
  listeners the component means to remove are never removed.

  Fields that are `undefined` until some handler first assigns them are
  `Option`s. A handler that dereferences one of them while it is still
  undefined raises a TypeError, which ends that handler and keeps the
  assignments it has already made; the functions below return exactly
  that state.
*/
module Session {
  import opened RealMath
  import opened Vectors
  import opened Particles
  import opened Contact

  datatype Option<T> = None | Some(value: T)

  /** A JavaScript number as `hits / shots` can produce it. */
  datatype Quotient = NaN | Infinity | Finite(value: real)

  /** The particle, the sampled force and the grab offset: assigned together by `grabBall`. */
  datatype Ball = Ball(p: Particle, force: Vector, start: Vector)

  datatype State = State(
    ball: Option<Ball>,
    /** The last pointer sample; `None` exactly while `timestamp` is null. */
    lastMouse: Option<Vector>,
    hasThrown: bool,
    highEnough: bool,
    /** The height of the ball at the previous frame. */
    lastY: Option<real>,
    shots: nat,
    hits: nat,
    score: nat,
    accuracy: Quotient)

  /** The field initialisers of the component. */
  const Initial := State(None, None, false, false, None, 0, 0, 0, Finite(0.0))

  /** A release caps the force at this length. */
  const MaxForce: real := 30.0
  /** The downward acceleration switched on at release. */
  const Gravity: real := 0.8
  /** Contact is only considered while the force is longer than this. */
  const MinContactForce: real := 15.0
  /** Contact is only considered while the ball is strictly within this height of the basket. */
  const ContactBand: real := 10.0

  datatype Event =
    | PointerDown(pointer: Vector, offsetY: real)
    | PointerMove(pointer: Vector)
    | PointerUp
    | Frame(basketWidth: real)
    | Timeout

  // ---------------------------------------------------------------------
  // Handlers

  /**
    `grabBall`: a particle at rest at the ball's resting place `(0, offsetY)`,
    no force, and the pointer's offset from that place.
  */
  function GrabBall(m: MathLib, s: State, pointer: Vector, offsetY: real): (r: State)
    requires Exact(m)
    ensures r.ball.Some?
    ensures r.ball.value.p == Particle(Vector(0.0, offsetY), Zero, Zero)
    ensures r.ball.value.force == Zero
    ensures Subtract(pointer, r.ball.value.start) == r.ball.value.p.position
    ensures r.(ball := s.ball) == s
  {
    CreateAtRest(m, 0.0, offsetY, 0.0, 0.0);
    var p := Particles.Create(m, 0.0, offsetY, 0.0, 0.0, 0.0);
    s.(ball := Some(Ball(p, Vectors.Create(0.0, 0.0), Vectors.Create(pointer.x, pointer.y - offsetY))))
  }

  /** The force a pointer move from `last` to `curr` samples: half the horizontal and twice the vertical delta. */
  function SkewedDelta(last: Vector, curr: Vector): (f: Vector)
    ensures Add(last, Vector(2.0 * f.x, f.y / 2.0)) == curr
  {
    var dx := curr.x - last.x;
    var dy := curr.y - last.y;
    Vectors.Create(dx / 2.0, dy * 2.0)
  }

  /**
    `getSpeed`, the state part of `moveBall`: the first sample after a
    release (or ever) only records the pointer; every later one samples
    the force and puts the ball under the pointer.
  */
  function GetSpeed(s: State, pointer: Vector): (r: State)
    ensures r.lastMouse == Some(pointer)
    ensures r.(lastMouse := s.lastMouse, ball := s.ball) == s
    ensures s.lastMouse.None? || s.ball.None? ==> r.ball == s.ball
    ensures s.ball.Some? ==> r.ball.Some?
    ensures s.lastMouse.Some? && s.ball.Some? && r.ball.Some? ==>
      var b, b' := s.ball.value, r.ball.value;
      && b'.force == SkewedDelta(s.lastMouse.value, pointer)
      && Add(b'.p.position, b.start) == pointer
      && b'.p.velocity == b.p.velocity && b'.p.gravity == b.p.gravity
      && b'.start == b.start
  {
    match s.lastMouse
    case None =>
      s.(lastMouse := Some(pointer))
    case Some(last) =>
      var force := SkewedDelta(last, pointer);
      var s' := s.(lastMouse := Some(pointer));
      match s.ball
      // The program never reaches this case: `moveBall` is attached only by
      // `grabBall`, after `p` and `force` are assigned. The model admits it
      // because it admits every event order, and leaves the ball undefined.
      case None => s'
      case Some(b) =>
        var position := SetY(SetX(b.p.position, pointer.x - b.start.x), pointer.y - b.start.y);
        s'.(ball := Some(Ball(b.p.(position := position), force, b.start)))
  }

  /** The force a release throws with: unchanged up to length 30, otherwise set to length 30. */
  function ClampForce(m: MathLib, force: Vector): (f: Vector)
    requires Exact(m)
    ensures LengthSq(force) <= MaxForce * MaxForce ==> f == force
    ensures LengthSq(force) > MaxForce * MaxForce ==>
      && LengthSq(f) == MaxForce * MaxForce
      && ScaleUniform(f, GetLength(m, force)) == ScaleUniform(force, MaxForce)
  {
    LengthAbove(m, force, MaxForce);
    SetLengthResizes(m, force, MaxForce);
    if GetLength(m, force) > MaxForce then SetLength(m, force, MaxForce) else force
  }

  /**
    `releaseBall`: the sampling restarts, the shot is counted, and the
    (clamped) force becomes the velocity under gravity `(0, 0.8)`.
  */
  function ReleaseBall(m: MathLib, s: State): (r: State)
    requires Exact(m)
    ensures r.shots == s.shots + 1 && r.hasThrown && r.lastMouse.None?
    ensures r.(ball := s.ball, lastMouse := s.lastMouse, hasThrown := s.hasThrown, shots := s.shots) == s
    ensures s.ball.None? ==> r.ball.None?
    ensures s.ball.Some? ==> r.ball.Some?
    ensures s.ball.Some? && r.ball.Some? ==>
      var b, b' := s.ball.value, r.ball.value;
      && b'.force == ClampForce(m, b.force)
      && LengthSq(b'.force) <= MaxForce * MaxForce
      && b'.p == Particle(b.p.position, b'.force, Vector(0.0, Gravity))
      && b'.start == b.start
  {
    var s' := s.(lastMouse := None, hasThrown := true, shots := s.shots + 1);
    match s.ball
    // Before the first grab `force` is still undefined: the handler raises
    // at `getLength`, after the shot was counted.
    case None => s'
    case Some(b) =>
      var force := ClampForce(m, b.force);
      s'.(ball := Some(Ball(b.p.(velocity := force, gravity := Vectors.Create(0.0, Gravity)), force, b.start)))
  }

  /** `this.lastY < currY`: false while `lastY` is undefined. */
  predicate Falling(lastY: Option<real>, currY: real) {
    lastY.Some? && lastY.value < currY
  }

  /** The conditions under which `tick` tests for contact, given the latched `highEnough`. */
  predicate InContactWindow(m: MathLib, s: State, b: Ball, high: bool)
    requires Exact(m)
  {
    var currY := b.p.position.y;
    && s.hasThrown
    && high
    && Falling(s.lastY, currY)
    && GetLength(m, b.force) > MinContactForce
    && currY < ContactBand && currY > -ContactBand
  }

  /** The effect of a contact outcome on the state. */
  function ApplyOutcome(s: State, b: Ball, o: Outcome): (r: State)
    ensures r.shots == s.shots
    ensures o.Score? ==> r.hits == s.hits + 1 && r.score == s.score + o.points
    ensures !o.Score? ==> r.hits == s.hits && r.score == s.score
    ensures o.Bounce? ==> r.ball == Some(b.(force := o.force, p := b.p.(velocity := o.force)))
    ensures !o.Bounce? ==> r.ball == Some(b)
  {
    match o
    case Bounce(force) => s.(ball := Some(b.(force := force, p := b.p.(velocity := force))))
    case Score(points) => s.(ball := Some(b), hits := s.hits + 1, score := s.score + points)
    case Miss => s.(ball := Some(b))
  }

  /**
    `tick`: latches `highEnough`, tests the pre-update position for
    contact, then advances the particle one step and remembers the
    pre-update height.
  */
  function Tick(m: MathLib, s: State, basketWidth: real): (r: State)
    requires Exact(m)
    ensures r.shots == s.shots && r.lastMouse == s.lastMouse && r.accuracy == s.accuracy
    ensures r.ball.Some? <==> s.ball.Some?
    ensures r.hasThrown ==> s.hasThrown
    ensures s.ball.None? ==> r == s
    ensures s.ball.Some? ==>
      var p := s.ball.value.p;
      && r.lastY == Some(p.position.y)
      && r.highEnough == (s.highEnough || (s.hasThrown && p.position.y < 0.0))
      && r.ball.value.start == s.ball.value.start
      && r.ball.value.p.position == Add(p.position, r.ball.value.p.velocity)
      && r.ball.value.p.gravity == p.gravity
    ensures r.hits == s.hits || r.hits == s.hits + 1
    ensures r.hits == s.hits ==> r.score == s.score
    ensures r.hits == s.hits + 1 ==> s.hasThrown && !r.hasThrown && s.score + 2 <= r.score <= s.score + 3
  {
    match s.ball
    // `this.p.position` raises before anything is assigned.
    case None => s
    case Some(b) =>
      var currY := b.p.position.y;
      var currX := b.p.position.x;
      var high := s.highEnough || (s.hasThrown && currY < 0.0);
      var s1 := s.(highEnough := high);
      var s2 :=
        if InContactWindow(m, s, b, high)
        then ApplyOutcome(s1.(hasThrown := false), b, Judge(m, b.force, currX, basketWidth))
        else s1;
      var b2 := s2.ball.value;
      s2.(ball := Some(b2.(p := Update(b2.p))), lastY := Some(currY))
  }

  /** `updateScore`'s accuracy: `hits / shots` as a JavaScript division. */
  function Accuracy(hits: nat, shots: nat): (q: Quotient)
    ensures shots > 0 ==> q.Finite? && q.value * (shots as real) == hits as real
    ensures shots == 0 ==> (q == NaN <==> hits == 0) && (q == Infinity <==> hits > 0)
  {
    if shots > 0 then Finite((hits as real) / (shots as real))
    else if hits == 0 then NaN
    else Infinity
  }

  /**
    `reset`: gravity off, both flags cleared and the accuracy recomputed;
    the counters stay as they are.
  */
  function Reset(s: State): (r: State)
    ensures s.ball.None? ==> r == s
    ensures s.ball.Some? ==>
      && !r.hasThrown && !r.highEnough
      && r.accuracy == Accuracy(s.hits, s.shots)
      && r.ball.Some?
      && r.ball.value.p.gravity == Zero
      && r.ball.value.(p := s.ball.value.p) == s.ball.value
      && r.ball.value.p.(gravity := s.ball.value.p.gravity) == s.ball.value.p
      && r.(ball := s.ball, hasThrown := s.hasThrown, highEnough := s.highEnough, accuracy := s.accuracy) == s
  {
    match s.ball
    // `this.p.gravity` raises before anything is assigned.
    case None => s
    case Some(b) =>
      s.(ball := Some(b.(p := b.p.(gravity := Vectors.Create(0.0, 0.0)))),
         hasThrown := false,
         highEnough := false,
         accuracy := Accuracy(s.hits, s.shots))
  }

  /** One event, delivered to its handler. */
  function Step(m: MathLib, s: State, e: Event): State
    requires Exact(m)
  {
    match e
    case PointerDown(pointer, offsetY) => GrabBall(m, s, pointer, offsetY)
    case PointerMove(pointer) => GetSpeed(s, pointer)
    case PointerUp => ReleaseBall(m, s)
    case Frame(basketWidth) => Tick(m, s, basketWidth)
    case Timeout => Reset(s)
  }

  /** A sequence of events, delivered in order. */
  function Run(m: MathLib, s: State, events: seq<Event>): State
    requires Exact(m)
    decreases |events|
  {
    if |events| == 0 then s else Run(m, Step(m, s, events[0]), events[1..])
  }
}

=== FILE: session_props.dfy ===
/**
  Properties of the throw-and-score state over single handlers and over
  arbitrary event sequences.
*/
module SessionProperties {
  import opened RealMath
  import opened Vectors
  import opened Particles
  import opened Contact
  import opened Session

  /**
    What every reachable state satisfies: each basket used up a shot that
    had not scored yet, each basket is worth two or three points, and the
    displayed accuracy is either the initial `0`, `NaN` before the first
    shot, or a fraction in `[0, 1]`.
  */
  ghost predicate Consistent(s: State) {
    && s.hits + (if s.hasThrown then 1 else 0) <= s.shots
    && 2 * s.hits <= s.score <= 3 * s.hits
    && (s.accuracy == NaN || (s.accuracy.Finite? && 0.0 <= s.accuracy.value <= 1.0))
  }

  lemma InitialConsistent()
    ensures Consistent(Initial)
  {
  }

  /** With no more hits than shots, the accuracy `reset` computes is `NaN` before the first shot and in `[0, 1]` after. */
  lemma AccuracyInRange(hits: nat, shots: nat)
    requires hits <= shots
    ensures shots == 0 ==> Accuracy(hits, shots) == NaN
    ensures shots > 0 ==> Accuracy(hits, shots).Finite? && 0.0 <= Accuracy(hits, shots).value <= 1.0
  {
    if shots > 0 {
      var q := Accuracy(hits, shots).value;
      var n := shots as real;
      assert q * n == hits as real;
      if q < 0.0 {
        PositiveProduct(-q, n);
      }
      if q > 1.0 {
        PositiveProduct(q - 1.0, n);
        assert q * n > n;
      }
    }
  }

  /** Every handler keeps the state consistent. */
  lemma StepPreservesConsistent(m: MathLib, s: State, e: Event)
    requires Exact(m) && Consistent(s)
    ensures Consistent(Step(m, s, e))
  {
    match e
    case PointerDown(pointer, offsetY) => GrabPreservesConsistent(m, s, pointer, offsetY);
    case PointerMove(pointer) => assert Step(m, s, e) == GetSpeed(s, pointer);
    case PointerUp => ReleasePreservesConsistent(m, s);
    case Frame(basketWidth) => TickPreservesConsistent(m, s, basketWidth);
    case Timeout => ResetPreservesConsistent(s);
  }

  lemma GrabPreservesConsistent(m: MathLib, s: State, pointer: Vector, offsetY: real)
    requires Exact(m) && Consistent(s)
    ensures Consistent(GrabBall(m, s, pointer, offsetY))
  {
    var r := GrabBall(m, s, pointer, offsetY);
    assert r.hits == s.hits && r.shots == s.shots && r.score == s.score;
    assert r.hasThrown == s.hasThrown && r.accuracy == s.accuracy;
  }

  lemma ReleasePreservesConsistent(m: MathLib, s: State)
    requires Exact(m) && Consistent(s)
    ensures Consistent(ReleaseBall(m, s))
  {
  }

  lemma TickPreservesConsistent(m: MathLib, s: State, basketWidth: real)
    requires Exact(m) && Consistent(s)
    ensures Consistent(Tick(m, s, basketWidth))
  {
  }

  lemma ResetPreservesConsistent(s: State)
    requires Consistent(s)
    ensures Consistent(Reset(s))
  {
    if s.ball.Some? {
      AccuracyInRange(s.hits, s.shots);
    }
  }

  /** Any sequence of events keeps the state consistent. */
  lemma {:induction false} RunPreservesConsistent(m: MathLib, s: State, events: seq<Event>)
    requires Exact(m) && Consistent(s)
    ensures Consistent(Run(m, s, events))
    decreases |events|
  {
    if |events| > 0 {
      StepPreservesConsistent(m, s, events[0]);
      RunPreservesConsistent(m, Step(m, s, events[0]), events[1..]);
    }
  }

  /** Whatever the host delivers, in whatever order, the score stays within two and three points per basket and the accuracy never becomes infinite. */
  lemma Reachable(m: MathLib, events: seq<Event>)
    requires Exact(m)
    ensures var s := Run(m, Initial, events);
      && s.hits <= s.shots
      && 2 * s.hits <= s.score <= 3 * s.hits
      && s.accuracy != Infinity
  {
    InitialConsistent();
    RunPreservesConsistent(m, Initial, events);
  }

  /** No handler decreases the shot, hit or score counters. */
  lemma StepMonotone(m: MathLib, s: State, e: Event)
    requires Exact(m)
    ensures var r := Step(m, s, e);
      s.shots <= r.shots && s.hits <= r.hits && s.score <= r.score
  {
    if e.PointerDown? {
      var r := GrabBall(m, s, e.pointer, e.offsetY);
      assert r.hits == s.hits && r.shots == s.shots && r.score == s.score;
    }
  }

  /** Over any sequence of events the counters only grow. */
  lemma {:induction false} RunMonotone(m: MathLib, s: State, events: seq<Event>)
    requires Exact(m)
    ensures var r := Run(m, s, events);
      s.shots <= r.shots && s.hits <= r.hits && s.score <= r.score
    decreases |events|
  {
    if |events| > 0 {
      StepMonotone(m, s, events[0]);
      RunMonotone(m, Step(m, s, events[0]), events[1..]);
    }
  }

  /** Only `reset` clears `highEnough`; every other handler keeps it once set. */
  lemma StepKeepsHighEnough(m: MathLib, s: State, e: Event)
    requires Exact(m) && s.highEnough && !e.Timeout?
    ensures Step(m, s, e).highEnough
  {
    if e.PointerDown? {
      var r := GrabBall(m, s, e.pointer, e.offsetY);
      assert r.highEnough == s.highEnough;
    }
  }

  /** Until the next timeout fires, `highEnough` stays latched. */
  lemma {:induction false} HighEnoughLatches(m: MathLib, s: State, events: seq<Event>)
    requires Exact(m) && s.highEnough
    requires forall i :: 0 <= i < |events| ==> !events[i].Timeout?
    ensures Run(m, s, events).highEnough
    decreases |events|
  {
    if |events| > 0 {
      StepKeepsHighEnough(m, s, events[0]);
      assert forall i :: 0 <= i < |events[1..]| ==> !events[1..][i].Timeout? by {
        forall i | 0 <= i < |events[1..]|
          ensures !events[1..][i].Timeout?
        {
          assert events[1..][i] == events[i + 1];
        }
      }
      HighEnoughLatches(m, Step(m, s, events[0]), events[1..]);
    }
  }

  /** The contact test's length bound, stated without the square root: the force is longer than 15 exactly when its squared length exceeds 225. */
  lemma ContactWindowBySquares(m: MathLib, s: State, b: Ball, high: bool)
    requires Exact(m)
    ensures InContactWindow(m, s, b, high) <==>
      && s.hasThrown && high
      && s.lastY.Some? && s.lastY.value < b.p.position.y
      && LengthSq(b.force) > MinContactForce * MinContactForce
      && -ContactBand < b.p.position.y < ContactBand
  {
    LengthAbove(m, b.force, MinContactForce);
  }

  /**
    A frame scores exactly when the ball is in the contact window and over
    the hoop; the basket is worth three points exactly when the horizontal
    force exceeds two in magnitude, it ends the throw, and the ball keeps
    its force and takes a plain update.
  */
  lemma TickScoresOnlyOverHoop(m: MathLib, s: State, basketWidth: real)
    requires Exact(m) && s.ball.Some?
    ensures var b := s.ball.value;
      var high := s.highEnough || (s.hasThrown && b.p.position.y < 0.0);
      var r := Tick(m, s, basketWidth);
      && (r.hits == s.hits + 1 <==> InContactWindow(m, s, b, high) && Classify(b.p.position.x, basketWidth) == Hoop)
      && (r.hits == s.hits + 1 ==> !r.hasThrown && (r.score == s.score + 3 <==> Abs(b.force.x) > BonusForce))
      && (r.hits == s.hits + 1 ==> r.ball.value.p == Update(b.p) && r.ball.value.force == b.force)
  {
  }

  /**
    A rim contact replaces the force with the deflected one (x set to a
    tenth of the contact offset, length scaled by 0.7), makes it the
    velocity, and then the frame's update adds gravity; nothing is scored
    and the throw is over.
  */
  lemma TickRimBounce(m: MathLib, s: State, basketWidth: real)
    requires Exact(m) && s.ball.Some?
    requires var b := s.ball.value;
      var high := s.highEnough || (s.hasThrown && b.p.position.y < 0.0);
      InContactWindow(m, s, b, high) && Classify(b.p.position.x, basketWidth) == Rim
    ensures var b := s.ball.value;
      var force := ScaleUniform(Vector(b.p.position.x / RimDeflection, b.force.y), RimDamping);
      var r := Tick(m, s, basketWidth);
      && r.ball.value.force == force
      && r.ball.value.p.velocity == Add(force, b.p.gravity)
      && r.hits == s.hits && r.score == s.score
      && !r.hasThrown
  {
  }

  /** Every contact in the window ends the throw, whatever the zone: the flag is cleared before the zone is tested. */
  lemma TickContactEndsThrow(m: MathLib, s: State, basketWidth: real)
    requires Exact(m) && s.ball.Some?
    requires var b := s.ball.value;
      var high := s.highEnough || (s.hasThrown && b.p.position.y < 0.0);
      InContactWindow(m, s, b, high)
    ensures !Tick(m, s, basketWidth).hasThrown
  {
  }

  /** A contact wide of the basket ends the throw and does nothing else: no score, the force kept, the particle advanced as usual. */
  lemma TickWideMiss(m: MathLib, s: State, basketWidth: real)
    requires Exact(m) && s.ball.Some?
    requires var b := s.ball.value;
      var high := s.highEnough || (s.hasThrown && b.p.position.y < 0.0);
      InContactWindow(m, s, b, high) && Classify(b.p.position.x, basketWidth) == Wide
    ensures var b := s.ball.value;
      var r := Tick(m, s, basketWidth);
      && !r.hasThrown
      && r.hits == s.hits && r.score == s.score
      && r.ball.value.force == b.force
      && r.ball.value.p == Update(b.p)
  {
  }

  /** Outside the contact window a frame only latches the flag, advances the particle and records the height. */
  lemma TickOutsideWindow(m: MathLib, s: State, basketWidth: real)
    requires Exact(m) && s.ball.Some?
    requires var b := s.ball.value;
      var high := s.highEnough || (s.hasThrown && b.p.position.y < 0.0);
      !InContactWindow(m, s, b, high)
    ensures var b := s.ball.value;
      var r := Tick(m, s, basketWidth);
      && r.ball.value.p == Update(b.p)
      && r.ball.value.force == b.force
      && r.hasThrown == s.hasThrown
      && r.hits == s.hits && r.score == s.score
  {
  }

  /**
    After a grab, the first pointer move only records the pointer if no
    earlier sample is pending; otherwise a move back to the grab point puts
    the ball back at its resting place `(0, offsetY)`.
  */
  lemma GrabThenMoveBack(m: MathLib, s: State, pointer: Vector, offsetY: real)
    requires Exact(m)
    ensures var g := GrabBall(m, s, pointer, offsetY);
      var r := GetSpeed(g, pointer);
      && (s.lastMouse.None? ==> r == g.(lastMouse := Some(pointer)))
      && (s.lastMouse.Some? ==> r.ball.value.p.position == Vector(0.0, offsetY))
  {
    var g := GrabBall(m, s, pointer, offsetY);
    var r := GetSpeed(g, pointer);
    assert g.lastMouse == s.lastMouse;
    if s.lastMouse.Some? {
      var b, b' := g.ball.value, r.ball.value;
      assert Add(b'.p.position, b.start) == pointer;
      assert b'.p.position == Vector(b'.p.position.x, b'.p.position.y);
    }
  }

  /** A release of a force longer than 30 throws at exactly length 30. */
  lemma ReleaseClampsToMax(m: MathLib, s: State)
    requires Exact(m) && s.ball.Some? && LengthSq(s.ball.value.force) > MaxForce * MaxForce
    ensures GetLength(m, ReleaseBall(m, s).ball.value.p.velocity) == MaxForce
  {
    var v := ReleaseBall(m, s).ball.value.p.velocity;
    assert LengthSq(v) == MaxForce * MaxForce;
    SameSquare(GetLength(m, v), MaxForce);
  }

  /** `reset` on a consistent state after at least one shot shows a finite accuracy no greater than one. */
  lemma ResetAccuracy(s: State)
    requires Consistent(s) && s.ball.Some? && s.shots > 0
    ensures Reset(s).accuracy.Finite?
    ensures 0.0 <= Reset(s).accuracy.value <= 1.0
    ensures Reset(s).accuracy.value * (s.shots as real) == s.hits as real
  {
    AccuracyInRange(s.hits, s.shots);
  }
}

=== FILE: vector.dfy ===
/**
  The 2-D `Vector` value type of `src/app/models/vector.model.ts`.

  The class stores two mutable numbers; its mutators are modelled as
  functions returning the updated vector, and its numbers as `real`.
  The polar accessors go through the host's mathematical functions,
  which are the parameter `m`.
*/
module Vectors {
  import opened RealMath

  datatype Vector = Vector(x: real, y: real)

  const Zero := Vector(0.0, 0.0)

  /** The vector with the given angle and length, as both polar setters rebuild it. */
  function Polar(m: MathLib, angle: real, length: real): Vector {
    Vector(m.cos(angle) * length, m.sin(angle) * length)
  }

  /** Squared Euclidean length; exact, unlike the length itself. */
  function LengthSq(v: Vector): real {
    v.x * v.x + v.y * v.y
  }

  /** The bare constructor: the unit vector along the x axis. */
  function New(): (r: Vector)
    ensures LengthSq(r) == 1.0 && r.y == 0.0 && r.x > 0.0
  {
    Vector(1.0, 0.0)
  }

  /** `setX`: replaces the x component and nothing else. */
  function SetX(v: Vector, value: real): (r: Vector)
    ensures r.x == value && r.y == v.y
  {
    v.(x := value)
  }

  /** `setY`: replaces the y component and nothing else. */
  function SetY(v: Vector, value: real): (r: Vector)
    ensures r.x == v.x && r.y == value
  {
    v.(y := value)
  }

  /** `create`: a fresh vector whose setters overwrite both defaults. */
  function Create(x: real, y: real): (r: Vector)
    ensures r.x == x && r.y == y
  {
    SetY(SetX(New(), x), y)
  }

  /** `getLength`: the square root of the sum of squares. */
  function GetLength(m: MathLib, v: Vector): (r: real)
    requires Exact(m)
    ensures r >= 0.0 && r * r == LengthSq(v)
    ensures r == 0.0 <==> v == Zero
  {
    RootOfLengthSq(m, v);
    m.sqrt(v.x * v.x + v.y * v.y)
  }

  /** `getAngle`: `atan2(y, x)`; zero for the zero vector. */
  function GetAngle(m: MathLib, v: Vector): (r: real)
    requires Exact(m)
    ensures v == Zero ==> r == 0.0
    ensures m.cos(r) * GetLength(m, v) == v.x && m.sin(r) * GetLength(m, v) == v.y
  {
    AngleDirection(m, v);
    m.atan2(v.y, v.x)
  }

  /** `setAngle`: rebuilds both components from the current length and the new angle. */
  function SetAngle(m: MathLib, v: Vector, angle: real): Vector
    requires Exact(m)
  {
    Polar(m, angle, GetLength(m, v))
  }

  /** `setLength`: rebuilds both components from the current angle and the new length. */
  function SetLength(m: MathLib, v: Vector, length: real): Vector
    requires Exact(m)
  {
    Polar(m, GetAngle(m, v), length)
  }

  /** `add`: componentwise sum, a new vector. */
  function Add(a: Vector, b: Vector): (r: Vector)
    ensures r.x == a.x + b.x && r.y == a.y + b.y
  {
    Create(a.x + b.x, a.y + b.y)
  }

  /** `subtract`: componentwise difference, a new vector. */
  function Subtract(a: Vector, b: Vector): (r: Vector)
    ensures r.x == a.x - b.x && r.y == a.y - b.y
  {
    Create(a.x - b.x, a.y - b.y)
  }

  /** `scale` as written: the x component times `k`, copied into both components. */
  function Scale(v: Vector, k: real): (r: Vector)
    ensures r.x == ScaleUniform(v, k).x && r.y == r.x
  {
    Create(v.x * k, v.x * k)
  }

  /** Uniform scaling, the behaviour `scale` evidently intends. */
  function ScaleUniform(v: Vector, k: real): Vector {
    Vector(v.x * k, v.y * k)
  }

  // ---------------------------------------------------------------------
  // `add` and `subtract` undo each other

  lemma AddThenSubtract(a: Vector, b: Vector)
    ensures Subtract(Add(a, b), b) == a
  {
  }

  lemma SubtractThenAdd(a: Vector, b: Vector)
    ensures Add(Subtract(a, b), b) == a
  {
  }

  // ---------------------------------------------------------------------
  // Scaling: the defect of `scale` and the corrected operation

  /** `scale` agrees with uniform scaling exactly when `k` is zero or the components are equal. */
  lemma ScaleAgreesOnlyOnDiagonal(v: Vector, k: real)
    ensures Scale(v, k) == ScaleUniform(v, k) <==> (k == 0.0 || v.x == v.y)
  {
    if Scale(v, k) == ScaleUniform(v, k) && k != 0.0 {
      assert v.x * k == v.y * k;
      CancelFactor(v.x, v.y, k);
    }
  }

  /** A concrete input on which `scale` loses the y component. */
  lemma ScaleCounterexample()
    ensures Scale(Vector(1.0, 2.0), 2.0) == Vector(2.0, 2.0)
    ensures ScaleUniform(Vector(1.0, 2.0), 2.0) == Vector(2.0, 4.0)
  {
  }

  lemma ScaleUniformDistributes(a: Vector, b: Vector, k: real)
    ensures ScaleUniform(Add(a, b), k) == Add(ScaleUniform(a, k), ScaleUniform(b, k))
  {
  }

  lemma ScaleUniformComposes(v: Vector, j: real, k: real)
    ensures ScaleUniform(ScaleUniform(v, j), k) == ScaleUniform(v, j * k)
  {
  }

  /** Uniform scaling by `k` multiplies the squared length by `k * k`. */
  lemma ScaleUniformLengthSq(v: Vector, k: real)
    ensures LengthSq(ScaleUniform(v, k)) == k * k * LengthSq(v)
  {
  }

  /** Uniform scaling by `k` multiplies the length by `|k|`. */
  lemma ScaleUniformLength(m: MathLib, v: Vector, k: real)
    requires Exact(m)
    ensures GetLength(m, ScaleUniform(v, k)) == Abs(k) * GetLength(m, v)
  {
    var len := GetLength(m, v);
    var a := Abs(k);
    var r := GetLength(m, ScaleUniform(v, k));
    ScaleUniformLengthSq(v, k);
    assert r * r == k * k * (len * len);
    assert (a * len) * (a * len) == k * k * (len * len);
    NonNegativeProduct(a, len);
    SameSquare(r, a * len);
  }

  // ---------------------------------------------------------------------
  // Polar round trips

  /** Setting the angle a vector already has, then the length it already has, gives it back. */
  lemma PolarRoundTrip(m: MathLib, v: Vector)
    requires Exact(m)
    ensures SetAngle(m, v, GetAngle(m, v)) == v
    ensures SetLength(m, v, GetLength(m, v)) == v
  {
    SetLengthByFactor(m, v, 1.0);
    assert GetLength(m, v) * 1.0 == GetLength(m, v);
    assert ScaleUniform(v, 1.0) == v;
  }

  /** `setAngle` keeps the length exactly, and leaves the zero vector zero. */
  lemma SetAngleKeepsLength(m: MathLib, v: Vector, angle: real)
    requires Exact(m)
    ensures LengthSq(SetAngle(m, v, angle)) == LengthSq(v)
    ensures GetLength(m, SetAngle(m, v, angle)) == GetLength(m, v)
    ensures v == Zero ==> SetAngle(m, v, angle) == Zero
  {
    PolarRebuild(m, angle, GetLength(m, v));
    SameSquare(GetLength(m, SetAngle(m, v, angle)), GetLength(m, v));
  }

  /**
    `setLength` gives a vector of squared length `length²` which, scaled by
    the old length, is the old vector scaled by the new one; the zero
    vector has angle zero, so it ends up on the x axis.
  */
  lemma SetLengthResizes(m: MathLib, v: Vector, length: real)
    requires Exact(m)
    ensures LengthSq(SetLength(m, v, length)) == length * length
    ensures v == Zero ==> SetLength(m, v, length) == Vector(length, 0.0)
    ensures ScaleUniform(SetLength(m, v, length), GetLength(m, v)) == ScaleUniform(v, length)
  {
    PolarResize(m, v, length);
  }

  /** A non-negative `setLength` gives exactly the requested length. */
  lemma SetLengthGivesLength(m: MathLib, v: Vector, length: real)
    requires Exact(m) && length >= 0.0
    ensures GetLength(m, SetLength(m, v, length)) == length
  {
    SetLengthResizes(m, v, length);
    SameSquare(GetLength(m, SetLength(m, v, length)), length);
  }

  /** On a non-zero vector, `setLength` is uniform scaling by the new length over the old one. */
  lemma SetLengthScales(m: MathLib, v: Vector, length: real)
    requires Exact(m) && v != Zero
    ensures GetLength(m, v) > 0.0
    ensures SetLength(m, v, length) == ScaleUniform(v, length / GetLength(m, v))
  {
    var r, len := SetLength(m, v, length), GetLength(m, v);
    SetLengthResizes(m, v, length);
    assert ScaleUniform(r, len) == ScaleUniform(v, length);
    DivideOut(r.x, len, v.x, length);
    DivideOut(r.y, len, v.y, length);
  }

  /** Scaling a vector's length by a factor is uniform scaling by that factor. */
  lemma SetLengthByFactor(m: MathLib, v: Vector, f: real)
    requires Exact(m)
    ensures SetLength(m, v, GetLength(m, v) * f) == ScaleUniform(v, f)
  {
    if v == Zero {
      SetLengthByFactorOfZero(m, f);
    } else {
      SetLengthByFactorNonZero(m, v, f);
    }
  }

  lemma SetLengthByFactorOfZero(m: MathLib, f: real)
    requires Exact(m)
    ensures SetLength(m, Zero, GetLength(m, Zero) * f) == ScaleUniform(Zero, f)
  {
    assert GetLength(m, Zero) == 0.0;
    assert GetLength(m, Zero) * f == 0.0 by {
      ZeroTimes(GetLength(m, Zero), f);
    }
    SetLengthOfZero(m, 0.0);
    ScaleZero(f);
  }

  lemma SetLengthByFactorNonZero(m: MathLib, v: Vector, f: real)
    requires Exact(m) && v != Zero
    ensures SetLength(m, v, GetLength(m, v) * f) == ScaleUniform(v, f)
  {
    var len := GetLength(m, v);
    var r := SetLength(m, v, len * f);
    SetLengthResizes(m, v, len * f);
    assert ScaleUniform(r, len) == ScaleUniform(v, len * f);
    assert r.x * len == (v.x * f) * len;
    assert r.y * len == (v.y * f) * len;
    CancelFactor(r.x, v.x * f, len);
    CancelFactor(r.y, v.y * f, len);
    assert r == Vector(v.x * f, v.y * f);
  }

  lemma ZeroTimes(a: real, b: real)
    requires a == 0.0
    ensures a * b == 0.0
  {
  }

  lemma ScaleZero(k: real)
    ensures ScaleUniform(Zero, k) == Zero
  {
  }

  lemma SetLengthOfZero(m: MathLib, length: real)
    requires Exact(m)
    ensures SetLength(m, Zero, length) == Vector(length, 0.0)
  {
    PolarOfZero(m, length);
  }

  /** Comparing a length with a non-negative bound is comparing squared lengths. */
  lemma LengthAbove(m: MathLib, v: Vector, c: real)
    requires Exact(m) && c >= 0.0
    ensures GetLength(m, v) > c <==> LengthSq(v) > c * c
  {
    RootAbove(GetLength(m, v), LengthSq(v), c);
  }

  // ---------------------------------------------------------------------
  // Arithmetic helpers

  lemma NonNegativeSquare(a: real)
    ensures a * a >= 0.0
  {
    if a < 0.0 {
      PositiveProduct(-a, -a);
    }
  }

  lemma SquareZero(a: real)
    requires a * a == 0.0
    ensures a == 0.0
  {
    ZeroProduct(a, a);
  }

  lemma CancelFactor(a: real, b: real, k: real)
    requires k != 0.0 && a * k == b * k
    ensures a == b
  {
    assert (a - b) * k == 0.0;
    ZeroProduct(a - b, k);
  }

  /** Two non-negative numbers with the same square are equal. */
  lemma SameSquare(a: real, b: real)
    requires a >= 0.0 && b >= 0.0 && a * a == b * b
    ensures a == b
  {
    assert (a - b) * (a + b) == a * a - b * b == 0.0;
    ZeroProduct(a - b, a + b);
  }

  /** The polar rebuild with a given length has that length squared, and is zero for length zero. */
  lemma PolarRebuild(m: MathLib, angle: real, length: real)
    requires Exact(m)
    ensures LengthSq(Polar(m, angle, length)) == length * length
    ensures length == 0.0 ==> Polar(m, angle, length) == Zero
  {
    PolarLengthSq(m, angle, length);
  }

  lemma PolarLengthSq(m: MathLib, angle: real, length: real)
    requires Exact(m)
    ensures LengthSq(Vector(m.cos(angle) * length, m.sin(angle) * length)) == length * length
  {
    var c, s := m.cos(angle), m.sin(angle);
    assert c * c + s * s == 1.0;
    assert (c * length) * (c * length) + (s * length) * (s * length) == (c * c + s * s) * (length * length);
  }

  lemma RootOfLengthSq(m: MathLib, v: Vector)
    requires Exact(m)
    ensures LengthSq(v) >= 0.0
    ensures m.sqrt(LengthSq(v)) >= 0.0 && m.sqrt(LengthSq(v)) * m.sqrt(LengthSq(v)) == LengthSq(v)
    ensures m.sqrt(LengthSq(v)) == 0.0 <==> v == Zero
  {
    NonNegativeSquare(v.x);
    NonNegativeSquare(v.y);
    if m.sqrt(LengthSq(v)) == 0.0 {
      assert v.x * v.x + v.y * v.y == 0.0;
      SquareZero(v.x);
      SquareZero(v.y);
    }
  }

  lemma PolarResize(m: MathLib, v: Vector, length: real)
    requires Exact(m)
    ensures LengthSq(Polar(m, GetAngle(m, v), length)) == length * length
    ensures v == Zero ==> Polar(m, GetAngle(m, v), length) == Vector(length, 0.0)
    ensures ScaleUniform(Polar(m, GetAngle(m, v), length), GetLength(m, v)) == ScaleUniform(v, length)
  {
    if v == Zero {
      PolarOfZero(m, length);
      OnXAxisLengthSq(length);
    } else {
      PolarLengthSq(m, GetAngle(m, v), length);
    }
    PolarDirection(m, v, length);
  }

  /** The host's `atan2` of a vector's components points along the vector. */
  lemma AngleDirection(m: MathLib, v: Vector)
    requires Exact(m)
    ensures v == Zero ==> m.atan2(v.y, v.x) == 0.0
    ensures m.cos(m.atan2(v.y, v.x)) * GetLength(m, v) == v.x
    ensures m.sin(m.atan2(v.y, v.x)) * GetLength(m, v) == v.y
  {
    AngleCos(m, v);
    AngleSin(m, v);
  }

  lemma AngleCos(m: MathLib, v: Vector)
    requires Exact(m)
    ensures m.cos(m.atan2(v.y, v.x)) * GetLength(m, v) == v.x
  {
  }

  lemma AngleSin(m: MathLib, v: Vector)
    requires Exact(m)
    ensures m.sin(m.atan2(v.y, v.x)) * GetLength(m, v) == v.y
  {
  }

  /** The zero vector has angle zero, so the polar rebuild lies on the x axis. */
  lemma PolarOfZero(m: MathLib, length: real)
    requires Exact(m)
    ensures Polar(m, GetAngle(m, Zero), length) == Vector(length, 0.0)
  {
    assert GetAngle(m, Zero) == 0.0;
  }

  /** The polar rebuild along a vector's own angle, times its length, is the vector times the new length. */
  lemma PolarDirection(m: MathLib, v: Vector, length: real)
    requires Exact(m)
    ensures ScaleUniform(Polar(m, GetAngle(m, v), length), GetLength(m, v)) == ScaleUniform(v, length)
  {
    AngleCos(m, v);
    AngleSin(m, v);
    RegroupVector(m.cos(GetAngle(m, v)), m.sin(GetAngle(m, v)), GetLength(m, v), v, length);
  }

  lemma RegroupVector(c: real, s: real, len: real, v: Vector, length: real)
    requires c * len == v.x && s * len == v.y
    ensures ScaleUniform(Vector(c * length, s * length), len) == ScaleUniform(v, length)
  {
    Regroup(c, len, v.x, length);
    Regroup(s, len, v.y, length);
  }

  lemma OnXAxisLengthSq(length: real)
    ensures LengthSq(Vector(length, 0.0)) == length * length
  {
  }

  lemma Regroup(c: real, len: real, a: real, length: real)
    requires c * len == a
    ensures (c * length) * len == a * length
  {
  }

  lemma DivideOut(r: real, len: real, a: real, length: real)
    requires len != 0.0 && r * len == a * length
    ensures r == a * (length / len)
  {
  }
}
